=== FILE: README.md ===
# ECIES file encryption tool, modelled in Dafny

`scripts/handle_encryption.py` is a hybrid public-key file encryption tool. To encrypt, it
generates an ephemeral P-256 key pair and runs ECDH with the recipient's public key. It derives
a 32-byte key from the shared secret with HKDF-SHA256 (no salt, info `ecies-file-encryption`)
and seals the whole file with AES-256-GCM. The output is a small container:

    "ECCFV100" | len(eph_pub) as 4 bytes big-endian | eph_pub (X9.62 uncompressed) | nonce (12) | ciphertext+tag

`auto_process` sniffs the first eight bytes of its input. A file that starts with the magic is
decrypted and needs a private key file. Any other file is encrypted, either to a key file holding
a private or a public key, or to the embedded default key `PUBKEY`.

The model works purely on byte sequences:

- `Octets`: bytes, ASCII literals and `f.read(n)`.
- `BigEndian`: `int.to_bytes(w, "big")` and `int.from_bytes(b, "big")`.
- `Curve`: the P-256 field prime and group order, public and private keys, and the X9.62
  uncompressed point encoding.
- `Crypto`: the library primitives as function-valued fields of `Primitives`. The facts the
  tool relies on are gathered in the predicate `Sound`:
  - ECDH agreement;
  - HKDF output length;
  - AES-GCM correctness, ciphertext length, and rejection of inputs shorter than the tag;
  - point decoding undoes point encoding;
  - parsed keys are valid.

  `Toy` is a (cryptographically worthless) instance proving that these facts are consistent.
- `KeyLoader`: `load_key_with_type`, with its nested exception handlers.
- `Codec`: the container writer and reader, and the reads of `decrypt_file` as written.
- `Ecies`: `encrypt_file` and `decrypt_file` without file I/O, and the end-to-end round trip.
- `ModeSelector`: `auto_process`, the default key, and the round trip through it.

Every exception the model keeps is a value of `Errors.Error`, returned in a `Wrappers.Result`; the
ones it does not keep are listed under "## Left out".

In these places the model follows the code, which behaves differently than a reader might expect:

- A container whose ciphertext is shorter than the 16-byte tag is not a format error. The code
  passes it to AES-GCM, which rejects it as InvalidTag (`Ecies.ShortCiphertextFailsAuthentication`).
- The length of the ephemeral key is not checked against 65. Any length is read, and the point
  parser decides (`Error.InvalidPoint`).
- A key file holding only a public key, asked for as a private key, does not fail with "File
  {filename} does not contain a private key". That error is raised inside the `try` of the
  public-key fallback and caught by its own `except ValueError`, so it surfaces as "does not
  contain a valid PEM key" (`KeyLoader.PublicKeyNeverPassesAsPrivate`).
- On the decryption path the key file is loaded before the container is read, so a bad key
  file is reported before a malformed container.

## Model

| member | source | states |
|---|---|---|
| `Octets.Ascii` | scripts/handle_encryption.py:10 | a literal's encoding has one byte per character, and each ASCII character becomes its own code (used for `MAGIC_HEADER`, the HKDF info and `PUBKEY.encode()`) |
| `Octets.ReadAtMost` | scripts/handle_encryption.py:93 | a read returns exactly `n` bytes when that many are left; otherwise it returns everything that is left; it is always a prefix of what is left |
| `BigEndian.ToBytes` | scripts/handle_encryption.py:78 | `to_bytes(width, "big")` gives exactly `width` bytes for every value below 256^width (4 bytes for the length field) |
| `BigEndian.FromBytes` | scripts/handle_encryption.py:97 | `from_bytes(b, "big")` of `k` bytes is below 256^k, so a 4-byte length field reads as less than 2^32 |
| `BigEndian.FromBytesToBytes` | scripts/handle_encryption.py:97 | reading a 4-byte big-endian field gives back every length below 2^32 that was written into it (any width, any value that fits) |
| `BigEndian.ToBytesFromBytes` | scripts/handle_encryption.py:78 | writing back a number that was read, at the width it was read at, reproduces the bytes, so the length field has exactly one encoding per value |
| `Curve.EncodePoint` | scripts/handle_encryption.py:70-73 | the uncompressed encoding is 65 bytes: tag 0x04, then X and Y as 32-byte big-endian numbers that read back as the coordinates |
| `Codec.HasMagic` | scripts/handle_encryption.py:93-94 | `f.read(8) == MAGIC_HEADER` holds exactly when the buffer has at least 8 bytes and they are `ECCFV100` |
| `Codec.Encode` | scripts/handle_encryption.py:76-85 | the file is magic, length, key, nonce and ciphertext in that order with no padding; its length is 8 + 4 + key + nonce + ciphertext; the length field reads back as the key length |
| `Codec.Decode` | scripts/handle_encryption.py:92-106 | a buffer is refused as "Not a valid encrypted file" exactly when its first 8 bytes are not the magic; every other failure is a named truncated field; every accepted buffer is exactly the encoding of what was read, with a 12-byte nonce |
| `Codec.DecodeEncode` | scripts/handle_encryption.py:97-106 | decoding an encoded container returns its key, nonce and ciphertext, for every key shorter than 2^32 bytes and a 12-byte nonce |
| `Codec.Read` | scripts/handle_encryption.py:93-106 | each `f.read` returns what `ReadAtMost` returns and leaves exactly the rest of the file, so no byte is skipped or read twice |
| `Codec.ReadsAsWritten` | scripts/handle_encryption.py:92-106 | the five successive reads of `decrypt_file`, short reads included, partition the file in order |
| `Codec.DecodeMatchesReads` | scripts/handle_encryption.py:92-106 | the explicit decoder rejects the magic exactly when the first read differs; it reports a truncated field exactly when that read came back short; when all reads are complete it returns what they returned |
| `KeyLoader.LoadKey` | scripts/handle_encryption.py:20-41 | the loader succeeds exactly on a private key, or on a public key when no private key is needed; with `need_private` it returns the private key; otherwise it returns a private key's public half or a public key unchanged; every failure is "not a valid PEM key" |
| `KeyLoader.PublicKeyNeverPassesAsPrivate` | scripts/handle_encryption.py:36-41 | a public-only key file asked for as private raises "does not contain a private key" inside the fallback, but the caller sees "does not contain a valid PEM key" |
| `KeyLoader.LoadedKeysAreValid` | scripts/handle_encryption.py:26-37 | with sound primitives, a loaded private key has a valid scalar and a loaded public key is a curve point |
| `Ecies.DeriveFileKey` | scripts/handle_encryption.py:53-58 | the AES key is HKDF output of exactly 32 bytes whenever HKDF returns the length asked for; the same call, with the same info string, is the key derivation of `decrypt_file` (lines 112-117) |
| `Ecies.BothSidesDeriveOneKey` | scripts/handle_encryption.py:109-117 | the recipient's exchange with the ephemeral public key derives the same AES key as the sender's exchange with the recipient's public key, for any two valid scalars, under ECDH agreement |
| `Ecies.Encrypt` | scripts/handle_encryption.py:44-81 | the output starts with the magic (so it is routed to decryption next time) and decodes, with the ephemeral public key's encoding and the drawn nonce in their fields |
| `Ecies.EncryptLength` | scripts/handle_encryption.py:61-81 | an encrypted file is 8 + 4 + 65 + 12 + plaintext + 16 bytes long |
| `Ecies.Decrypt` | scripts/handle_encryption.py:91-121 | "Not a valid encrypted file" exactly when the magic is missing; container errors propagate unchanged; an undecodable ephemeral key fails before any exchange; plaintext is returned only when AES-GCM opens the ciphertext, under the key derived from the recipient's exchange with the decoded ephemeral key, and returns that plaintext; for a well-formed container with a decodable key the result is exactly AES-GCM's outcome: InvalidTag when the open fails, otherwise the plaintext it returns |
| `Ecies.ForeignFileRejected` | scripts/handle_encryption.py:93-95 | a buffer without the magic is refused as "Not a valid encrypted file", whatever the primitives and the key, so no cryptographic operation decides the outcome |
| `Ecies.ShortCiphertextFailsAuthentication` | scripts/handle_encryption.py:106-121 | a well-formed container whose ciphertext is shorter than the tag, with a valid ephemeral key, fails in AES-GCM with InvalidTag, not with a format error |
| `Ecies.EncryptDecryptRoundTrip` | scripts/handle_encryption.py:44-121 | under ECDH agreement, equal HKDF parameters on both sides, point codec and AEAD correctness, decrypting with the recipient's private key returns the plaintext, for every plaintext including the empty one |
| `ModeSelector.SelectMode` | scripts/handle_encryption.py:132-135 | a buffer is routed to decryption if and only if its first 8 bytes are `ECCFV100`; every other buffer, short ones included, is routed to encryption |
| `ModeSelector.RecipientKey` | scripts/handle_encryption.py:145-148 | a private key file yields its public half and a public key file its key; an unparsable file fails as "not a valid PEM key"; without a key file the embedded `PUBKEY` is parsed as a public key |
| `ModeSelector.AutoProcess` | scripts/handle_encryption.py:130-149 | on a container without a key file the result is "Private key file required for decryption"; a key file that is not a private key fails as "not a valid PEM key"; decryption succeeds only on a well-formed container; encryption succeeds exactly when a recipient key is found, fails with the error finding the key raised otherwise, and its output is routed to decryption; a container with a private key file is exactly `decrypt_file` with that key, and a successful encryption is exactly `encrypt_file` to the key `RecipientKey` finds |
| `ModeSelector.AutoProcessRoundTrip` | scripts/handle_encryption.py:130-149 | a non-container file encrypted to the public half of a private key file comes back unchanged when the result is processed with that private key file |
| `ModeSelector.DefaultKeyRoundTrip` | scripts/handle_encryption.py:145-149 | without a key file the result decrypts with the private key whose public half is `PUBKEY` |

## Left out

- File reads and writes, `print` and the argparse command line. Operations take and return the
  contents of the files instead.
- Elliptic-curve arithmetic, the curve equation, HMAC-SHA256/HKDF, AES-GCM, point parsing and
  PEM parsing. They are calls into the `cryptography` library and are modelled as the
  uninterpreted fields of `Crypto.Primitives`, constrained only by `Crypto.Sound`. Point
  validity (the curve equation) is the primitive `onCurve`.
- `secrets.token_bytes(12)` and `ec.generate_private_key`. They are randomness sources; the
  nonce and the ephemeral private key are parameters.
- Tamper sensitivity and wrong-key rejection. These are computational security properties of
  AES-GCM and ECDH that no functional correctness axiom implies.
- Non-P-256 keys. The loader in the source would also accept an RSA or other-curve key, which
  then fails inside the exchange; the model's keys are P-256 keys only.
- Passphrase-protected private keys. `load_pem_private_key` raises TypeError for them, which no
  handler catches; the parse variant has no case for them.
- Key file path handling: `if not key_file` also treats an empty path as no key file. The model
  receives the key file's contents as an `Option`.
- Size limits of the AES-GCM implementation on very large plaintexts.
- `Codec.Decode`: truncation is an explicit error (`Truncated(field)`). The source has no such
  check; a short read instead makes a later call fail, with a different exception (the point
  parser or AES-GCM). `Codec.DecodeMatchesReads` ties each truncation error to the short read
  behind it.
- `Codec.Encode`: requires the ephemeral key to be shorter than 2^32 bytes, where
  `to_bytes(4, "big")` would raise OverflowError. The key written is always 65 bytes.
- `Octets.Ascii`: only ASCII text is ever encoded; a non-ASCII character keeps only its low
  byte instead of its UTF-8 encoding.
- The test-automation files of the repository (flashing wrappers, device and cloud tests). They
  wrap external tools and services and contain no logic of the tool.

=== FILE: big_endian.dfy ===
/** Unsigned big-endian integers of a fixed width, as written by `int.to_bytes(w, "big")`
    and read back by `int.from_bytes(b, "big")`. */
module BigEndian {
  import opened Octets

  function Pow256(n: nat): (r: nat)
    ensures r >= 1
  {
    if n == 0 then 1 else 0x100 * Pow256(n - 1)
  }

  lemma {:induction false} Pow256Add(a: nat, b: nat)
    ensures Pow256(a + b) == Pow256(a) * Pow256(b)
  {
    if a > 0 {
      Pow256Add(a - 1, b);
    }
  }

  /** The two widths the file tool uses: the 4-byte length field and a 32-byte coordinate. */
  lemma Pow256Values()
    ensures Pow256(4) == 0x1_0000_0000
    ensures Pow256(32) == 0x1_0000_0000_0000_0000_0000_0000_0000_0000_0000_0000_0000_0000_0000_0000_0000_0000
  {
    assert Pow256(2) == 0x1_0000;
    assert Pow256(4) == 0x1_0000_0000 by { Pow256Add(2, 2); }
    Pow256Add(4, 4);
    Pow256Add(8, 8);
    Pow256Add(16, 16);
  }

  /** `n.to_bytes(width, "big")`; Python raises OverflowError when `n` does not fit. */
  function ToBytes(n: nat, width: nat): (r: Bytes)
    requires n < Pow256(width)
    ensures |r| == width
  {
    if width == 0 then []
    else ToBytes(n / 0x100, width - 1) + [n % 0x100]
  }

  /** `int.from_bytes(s, "big")`, for a sequence of any length (the empty one reads as 0). */
  function FromBytes(s: Bytes): (r: nat)
    ensures r < Pow256(|s|)
  {
    if s == [] then 0
    else FromBytes(s[..|s| - 1]) * 0x100 + s[|s| - 1]
  }

  /** Reading back what was written gives the number that was written. */
  lemma {:induction false} FromBytesToBytes(n: nat, width: nat)
    requires n < Pow256(width)
    ensures FromBytes(ToBytes(n, width)) == n
  {
    if width > 0 {
      var r := ToBytes(n, width);
      var prefix := ToBytes(n / 0x100, width - 1);
      assert r[..|r| - 1] == prefix;
      FromBytesToBytes(n / 0x100, width - 1);
    }
  }

  /** Writing what was read, at the width it was read at, gives back the same bytes. */
  lemma {:induction false} ToBytesFromBytes(s: Bytes)
    ensures ToBytes(FromBytes(s), |s|) == s
  {
    if s != [] {
      var prefix := s[..|s| - 1];
      ToBytesFromBytes(prefix);
      assert s == prefix + [s[|s| - 1]];
    }
  }

  /** Two byte strings of one width that read as the same number are equal. */
  lemma FromBytesInjective(a: Bytes, b: Bytes)
    requires |a| == |b|
    requires FromBytes(a) == FromBytes(b)
    ensures a == b
  {
    ToBytesFromBytes(a);
    ToBytesFromBytes(b);
  }
}

=== FILE: codec.dfy ===
/** The encrypted-file container:
      magic (8) | length of the ephemeral key (4, big-endian) | ephemeral key | nonce (12) | ciphertext
    written by `encrypt_file` and read back by `decrypt_file`. */
module Codec {
  import opened Octets
  import opened BigEndian
  import opened Wrappers
  import opened Errors
  import opened Crypto

  /** `MAGIC_HEADER`, format identifier of version 1.0.0. */
  const MagicHeader: Bytes := Ascii("ECCFV100")

  const MagicLength: nat := 8

  const LengthFieldSize: nat := 4

  /** Bytes before the ephemeral key. */
  const PrefixLength: nat := MagicLength + LengthFieldSize

  datatype Container = Container(ephPub: Bytes, nonce: Bytes, ciphertext: Bytes)

  /** The test both `auto_process` and `decrypt_file` apply: `f.read(8) == MAGIC_HEADER`. */
  predicate HasMagic(buf: Bytes)
    ensures HasMagic(buf) <==> |buf| >= MagicLength && buf[..MagicLength] == MagicHeader
  {
    ReadAtMost(buf, |MagicHeader|) == MagicHeader
  }

  /** The file `encrypt_file` writes: its header followed by the ciphertext. */
  function Encode(c: Container): (file: Bytes)
    requires |c.ephPub| < 0x1_0000_0000
    ensures |file| == PrefixLength + |c.ephPub| + |c.nonce| + |c.ciphertext|
    ensures file[..MagicLength] == MagicHeader
    ensures FromBytes(file[MagicLength..PrefixLength]) == |c.ephPub|
    ensures file[PrefixLength..PrefixLength + |c.ephPub|] == c.ephPub
    ensures file[PrefixLength + |c.ephPub|..PrefixLength + |c.ephPub| + |c.nonce|] == c.nonce
    ensures file[PrefixLength + |c.ephPub| + |c.nonce|..] == c.ciphertext
  {
    Pow256Values();
    var lengthField := ToBytes(|c.ephPub|, LengthFieldSize);
    FromBytesToBytes(|c.ephPub|, LengthFieldSize);
    Slices5(MagicHeader, lengthField, c.ephPub, c.nonce, c.ciphertext);
    MagicHeader + lengthField + c.ephPub + c.nonce + c.ciphertext
  }

  /** The reads of `decrypt_file`, with every short read made an explicit error. */
  function Decode(buf: Bytes): (r: Result<Container, Error>)
    ensures r == Failure(NotEncryptedFile) <==> !HasMagic(buf)
    ensures r.Failure? ==> r.error == NotEncryptedFile || r.error.Truncated?
    ensures r.Success? ==> |r.value.nonce| == NonceLength && |r.value.ephPub| < 0x1_0000_0000
    ensures r.Success? ==> Encode(r.value) == buf
  {
    if !HasMagic(buf) then Failure(NotEncryptedFile)
    else if |buf| < PrefixLength then Failure(Truncated(LengthField))
    else
      var keyLength := FromBytes(buf[MagicLength..PrefixLength]);
      var keyEnd := PrefixLength + keyLength;
      if |buf| < keyEnd then Failure(Truncated(EphemeralKey))
      else if |buf| < keyEnd + NonceLength then Failure(Truncated(Nonce))
      else
        var c := Container(buf[PrefixLength..keyEnd], buf[keyEnd..keyEnd + NonceLength], buf[keyEnd + NonceLength..]);
        Pow256Values();
        EncodeOfDecoded(buf, c);
        Success(c)
  }

  /** Helper for `Decode`: the fields cut out of a complete buffer re-assemble into it. */
  lemma EncodeOfDecoded(buf: Bytes, c: Container)
    requires HasMagic(buf) && |buf| >= PrefixLength
    requires FromBytes(buf[MagicLength..PrefixLength]) == |c.ephPub|
    requires |c.ephPub| < 0x1_0000_0000 && |c.nonce| == NonceLength
    requires PrefixLength + |c.ephPub| + NonceLength <= |buf|
    requires c.ephPub == buf[PrefixLength..PrefixLength + |c.ephPub|]
    requires c.nonce == buf[PrefixLength + |c.ephPub|..PrefixLength + |c.ephPub| + NonceLength]
    requires c.ciphertext == buf[PrefixLength + |c.ephPub| + NonceLength..]
    ensures Encode(c) == buf
  {
    var file := Encode(c);
    var keyEnd := PrefixLength + |c.ephPub|;
    FromBytesInjective(file[MagicLength..PrefixLength], buf[MagicLength..PrefixLength]);
    Split5(file, MagicLength, PrefixLength, keyEnd, keyEnd + NonceLength);
    Split5(buf, MagicLength, PrefixLength, keyEnd, keyEnd + NonceLength);
  }

  /** Decoding what was encoded gives back the fields, for every key shorter than 2^32 bytes
      and the 12-byte nonce the tool always draws. */
  lemma DecodeEncode(c: Container)
    requires |c.ephPub| < 0x1_0000_0000
    requires |c.nonce| == NonceLength
    ensures Decode(Encode(c)) == Success(c)
  {
  }

  /** What `decrypt_file` holds after its five `f.read` calls (magic, length, key, nonce, the rest),
      without any length check. */
  datatype ReadTrace = ReadTrace(magic: Bytes, lengthField: Bytes, ephPub: Bytes, nonce: Bytes, rest: Bytes)

  /** One `f.read(n)`: what it returns and what is left in the file after it. */
  function Read(buf: Bytes, n: nat): (r: (Bytes, Bytes))
    ensures r.0 == ReadAtMost(buf, n)
    ensures r.0 + r.1 == buf
  {
    var taken := ReadAtMost(buf, n);
    (taken, buf[|taken|..])
  }

  /** The sequence of `f.read` calls of `decrypt_file` as written: each read takes what is left when
      the file is shorter than asked for. */
  function ReadsAsWritten(buf: Bytes): (t: ReadTrace)
    ensures t.magic + t.lengthField + t.ephPub + t.nonce + t.rest == buf
  {
    var (magic, r1) := Read(buf, MagicLength);
    var (lengthField, r2) := Read(r1, LengthFieldSize);
    var (ephPub, r3) := Read(r2, FromBytes(lengthField));
    var (nonce, rest) := Read(r3, NonceLength);
    assert buf == magic + (lengthField + (ephPub + (nonce + rest)));
    ReadTrace(magic, lengthField, ephPub, nonce, rest)
  }

  /** The explicit decoder agrees with the source's reads: it rejects the magic exactly when the
      first read differs from the header, it reports a truncated field exactly when that read came
      back short, and when every read is complete it returns what those reads returned. */
  lemma DecodeMatchesReads(buf: Bytes)
    ensures var t := ReadsAsWritten(buf);
      && (Decode(buf) == Failure(NotEncryptedFile) <==> t.magic != MagicHeader)
      && (Decode(buf) == Failure(Truncated(LengthField)) <==>
            t.magic == MagicHeader && |t.lengthField| < LengthFieldSize)
      && (Decode(buf) == Failure(Truncated(EphemeralKey)) <==>
            t.magic == MagicHeader && |t.lengthField| == LengthFieldSize && |t.ephPub| < FromBytes(t.lengthField))
      && (Decode(buf) == Failure(Truncated(Nonce)) <==>
            t.magic == MagicHeader && |t.lengthField| == LengthFieldSize && |t.ephPub| == FromBytes(t.lengthField)
            && |t.nonce| < NonceLength)
      && (Decode(buf).Success? ==> Decode(buf).value == Container(t.ephPub, t.nonce, t.rest))
  {
    var t := ReadsAsWritten(buf);
    if HasMagic(buf) && |buf| >= PrefixLength {
      assert t.lengthField == buf[MagicLength..PrefixLength];
    }
  }
}

=== FILE: crypto.dfy ===
/** The primitives the file tool takes from the `cryptography` library, as uninterpreted
    functions, and the facts about them the tool relies on. */
module Crypto {
  import opened Octets
  import opened BigEndian
  import opened Wrappers
  import opened Curve

  /** AES-256-GCM key length, the `length=32` of the HKDF calls. */
  const KeyLength: nat := 32

  /** Length of the GCM authentication tag appended to the ciphertext (128 bits). */
  const TagLength: nat := 16

  /** Length of the AES-GCM nonce drawn by `secrets.token_bytes(12)`. */
  const NonceLength: nat := 12

  /** The HKDF `info` string that `encrypt_file` and `decrypt_file` both pass. */
  const HkdfInfo: Bytes := Ascii("ecies-file-encryption")

  /** The outcome of trying `load_pem_private_key` and then `load_pem_public_key` on a key file. */
  datatype PemKey = Private(priv: PrivateKey) | Public(pub: PublicKey) | Unrecognized

  datatype Primitives = Primitives(
    /** the library's point validation: the point satisfies the curve equation */
    onCurve: PublicKey -> bool,
    /** `private_key.public_key()` */
    publicOf: PrivateKey -> PublicKey,
    /** `private_key.exchange(ec.ECDH(), public_key)`: the shared secret */
    exchange: (PrivateKey, PublicKey) -> Bytes,
    /** `HKDF(SHA256, length, salt=None, info).derive(ikm)`, arguments (ikm, info, length) */
    hkdf: (Bytes, Bytes, nat) -> Bytes,
    /** `AESGCM(key).encrypt(nonce, plaintext, None)`, arguments (key, nonce, plaintext) */
    seal: (Bytes, Bytes, Bytes) -> Bytes,
    /** `AESGCM(key).decrypt(nonce, ciphertext, None)`; `None` stands for InvalidTag */
    open: (Bytes, Bytes, Bytes) -> Option<Bytes>,
    /** `EllipticCurvePublicKey.from_encoded_point(SECP256R1(), bytes)`; `None` stands for ValueError */
    decodePoint: Bytes -> Option<PublicKey>,
    /** PEM parsing of a key file */
    parsePem: Bytes -> PemKey)

  /** The public half of a valid private key is a point of the curve. */
  ghost predicate KeyPairsOnCurve(p: Primitives) {
    forall k | ValidScalar(k) :: p.onCurve(p.publicOf(k))
  }

  /** ECDH agreement: both parties of an exchange compute the same shared secret. */
  ghost predicate EcdhAgrees(p: Primitives) {
    forall a, b | ValidScalar(a) && ValidScalar(b) :: p.exchange(a, p.publicOf(b)) == p.exchange(b, p.publicOf(a))
  }

  /** HKDF returns as many bytes as asked for (L in section 2.3 of RFC 5869). */
  ghost predicate HkdfLength(p: Primitives) {
    forall ikm, info, n :: |p.hkdf(ikm, info, n)| == n
  }

  /** AES-GCM with a 32-byte key and a 12-byte nonce: opening a sealed message gives it back,
      the ciphertext is the plaintext plus the tag, and anything shorter than the tag never opens. */
  ghost predicate AeadCorrect(p: Primitives) {
    && (forall k, n, m {:trigger p.seal(k, n, m)} | |k| == KeyLength && |n| == NonceLength ::
          p.open(k, n, p.seal(k, n, m)) == Some(m) && |p.seal(k, n, m)| == |m| + TagLength)
    && (forall k, n, c {:trigger p.open(k, n, c)} | |c| < TagLength :: p.open(k, n, c) == None)
  }

  /** X9.62: the uncompressed encoding of a curve point decodes to that point, and decoding
      only ever yields curve points. */
  ghost predicate PointCodec(p: Primitives) {
    && (forall q | p.onCurve(q) :: p.decodePoint(EncodePoint(q)) == Some(q))
    && (forall b | p.decodePoint(b).Some? :: p.onCurve(p.decodePoint(b).value))
  }

  /** PEM parsing only yields valid keys. */
  ghost predicate PemKeysValid(p: Primitives) {
    && (forall b | p.parsePem(b).Private? :: ValidScalar(p.parsePem(b).priv))
    && (forall b | p.parsePem(b).Public? :: p.onCurve(p.parsePem(b).pub))
  }

  /** The facts about the primitives that the file tool depends on. */
  ghost predicate Sound(p: Primitives) {
    && KeyPairsOnCurve(p)
    && EcdhAgrees(p)
    && HkdfLength(p)
    && AeadCorrect(p)
    && PointCodec(p)
    && PemKeysValid(p)
  }

  /** Point decoding as the toy instance does it: the uncompressed form only. */
  function ToyDecodePoint(b: Bytes): (r: Option<PublicKey>)
    ensures r.Some? ==> EncodePoint(r.value) == b
  {
    if |b| == PointLength && b[0] == UncompressedTag then
      var x := FromBytes(b[1..1 + CoordinateLength]);
      var y := FromBytes(b[1 + CoordinateLength..]);
      if x < FieldPrime && y < FieldPrime then
        var q := PublicKey(x, y);
        var e := EncodePoint(q);
        FromBytesInjective(e[1..1 + CoordinateLength], b[1..1 + CoordinateLength]);
        FromBytesInjective(e[1 + CoordinateLength..], b[1 + CoordinateLength..]);
        assert e == [e[0]] + e[1..1 + CoordinateLength] + e[1 + CoordinateLength..];
        assert b == [b[0]] + b[1..1 + CoordinateLength] + b[1 + CoordinateLength..];
        Some(q)
      else None
    else None
  }

  /** A toy instance of the primitives: every point valid, a constant key pair and shared
      secret, and a "cipher" that appends a zero tag. Worthless as cryptography; it only shows that the
      facts of `Sound` can all hold at once. */
  function Toy(): Primitives {
    Primitives(
      q => true,
      k => PublicKey(0, 0),
      (k, q) => [],
      (ikm: Bytes, info: Bytes, n: nat) => seq(n, i => 0),
      (k, n, m) => m + seq(TagLength, i => 0),
      (k, n, c) => if |c| < TagLength then None else Some(c[..|c| - TagLength]),
      ToyDecodePoint,
      b => Unrecognized)
  }

  lemma ToyIsSound()
    ensures Sound(Toy())
  {
    var p := Toy();
    assert KeyPairsOnCurve(p) by {
      assert forall q :: p.onCurve(q);
    }
    assert EcdhAgrees(p) by {
      assert forall a, b :: p.exchange(a, b) == [];
    }
    assert AeadCorrect(p) by {
      forall k: Bytes, n: Bytes, m: Bytes
        ensures p.open(k, n, p.seal(k, n, m)) == Some(m)
      {
        var c := p.seal(k, n, m);
        assert c[..|c| - TagLength] == m;
      }
    }
    assert PointCodec(p) by {
      forall q | p.onCurve(q)
        ensures p.decodePoint(EncodePoint(q)) == Some(q)
      {
        var r := ToyDecodePoint(EncodePoint(q));
        assert r.Some?;
        EncodePointInjective(r.value, q);
      }
    }
    assert PemKeysValid(p) by {
      assert forall b :: p.parsePem(b) == Unrecognized;
    }
  }
}

=== FILE: curve.dfy ===
/** Keys of the NIST P-256 curve (secp256r1, section 2.4.2 of SEC 2) and the X9.62 uncompressed
    encoding of its points. The curve equation and the group law are not modelled: point
    validation, key derivation and Diffie-Hellman are primitives of the Crypto module. */
module Curve {
  import opened Octets
  import opened BigEndian

  /** The field prime p = 2^256 - 2^224 + 2^192 + 2^96 - 1. */
  const FieldPrime: nat := 0xffffffff00000001000000000000000000000000ffffffffffffffffffffffff

  /** The order n of the base point. */
  const GroupOrder: nat := 0xffffffff00000000ffffffffffffffffbce6faada7179e84f3b9cac2fc632551

  const CoordinateLength: nat := 32

  /** 0x04, then X and Y as 32-byte big-endian numbers. */
  const PointLength: nat := 1 + 2 * CoordinateLength

  const UncompressedTag: Byte := 0x04

  /** An element of the field. */
  type Coordinate = x: nat | x < FieldPrime

  /** A public key: an affine point given by its coordinates. */
  datatype PublicKey = PublicKey(x: Coordinate, y: Coordinate)

  /** A private key: its secret scalar. */
  datatype PrivateKey = PrivateKey(scalar: nat)

  /** The scalars `ec.generate_private_key` and a PEM private key can hold. */
  predicate ValidScalar(k: PrivateKey) {
    1 <= k.scalar < GroupOrder
  }

  /** `public_bytes(Encoding.X962, PublicFormat.UncompressedPoint)`. */
  function EncodePoint(q: PublicKey): (r: Bytes)
    ensures |r| == PointLength
    ensures r[0] == UncompressedTag
    ensures FromBytes(r[1..1 + CoordinateLength]) == q.x
    ensures FromBytes(r[1 + CoordinateLength..]) == q.y
  {
    Pow256Values();
    var xs := ToBytes(q.x, CoordinateLength);
    var ys := ToBytes(q.y, CoordinateLength);
    FromBytesToBytes(q.x, CoordinateLength);
    FromBytesToBytes(q.y, CoordinateLength);
    var r := [UncompressedTag] + xs + ys;
    assert r[1..1 + CoordinateLength] == xs;
    assert r[1 + CoordinateLength..] == ys;
    r
  }

  /** Distinct points have distinct encodings. */
  lemma EncodePointInjective(p: PublicKey, q: PublicKey)
    requires EncodePoint(p) == EncodePoint(q)
    ensures p == q
  {
  }
}

=== FILE: ecies.dfy ===
/** `encrypt_file` and `decrypt_file` without their file I/O: ephemeral ECDH on P-256, an
    HKDF-SHA256 key and AES-256-GCM, packed into the container. */
module Ecies {
  import opened Octets
  import opened Wrappers
  import opened Errors
  import opened Curve
  import opened Crypto
  import opened Codec

  /** Length of everything in an encrypted file except the ciphertext. */
  const HeaderLength: nat := PrefixLength + PointLength + NonceLength

  /** The AES key both sides derive from the shared secret: HKDF-SHA256, no salt, 32 bytes,
      info "ecies-file-encryption". */
  function DeriveFileKey(prims: Primitives, secret: Bytes): (key: Bytes)
    ensures HkdfLength(prims) ==> |key| == KeyLength
  {
    prims.hkdf(secret, HkdfInfo, KeyLength)
  }

  /** The sender, from its ephemeral key and the recipient's public key, and the recipient, from
      its private key and the ephemeral public key, derive one and the same AES key. */
  lemma BothSidesDeriveOneKey(prims: Primitives, recipient: PrivateKey, ephemeral: PrivateKey)
    requires EcdhAgrees(prims)
    requires ValidScalar(recipient) && ValidScalar(ephemeral)
    ensures DeriveFileKey(prims, prims.exchange(ephemeral, prims.publicOf(recipient)))
         == DeriveFileKey(prims, prims.exchange(recipient, prims.publicOf(ephemeral)))
  {
  }

  /** `encrypt_file`: the ephemeral private key and the nonce, which the tool draws at random,
      are parameters. The result is the whole output file. */
  function Encrypt(prims: Primitives, recipient: PublicKey, plaintext: Bytes, ephemeral: PrivateKey, nonce: Bytes): (file: Bytes)
    requires |nonce| == NonceLength
    ensures HasMagic(file)
    ensures |file| >= HeaderLength
    ensures Decode(file).Success?
    ensures Decode(file).value.ephPub == EncodePoint(prims.publicOf(ephemeral))
    ensures Decode(file).value.nonce == nonce
  {
    var secret := prims.exchange(ephemeral, recipient);
    var key := DeriveFileKey(prims, secret);
    var ciphertext := prims.seal(key, nonce, plaintext);
    var ephPub := EncodePoint(prims.publicOf(ephemeral));
    var c := Container(ephPub, nonce, ciphertext);
    DecodeEncode(c);
    Encode(c)
  }

  /** `decrypt_file`: parse the container, rebuild the ephemeral public key, agree on the
      shared secret with the recipient's private key, derive the same key and open the ciphertext.
      Plaintext is returned only when AES-GCM accepts the tag under that key, and then it is
      exactly what AES-GCM returns. */
  function Decrypt(prims: Primitives, file: Bytes, recipient: PrivateKey): (r: Result<Bytes, Error>)
    ensures r == Failure(NotEncryptedFile) <==> !HasMagic(file)
    ensures Decode(file).Failure? ==> r == Failure(Decode(file).error)
    ensures Decode(file).Success? && prims.decodePoint(Decode(file).value.ephPub).None? ==>
              r == Failure(InvalidPoint)
    ensures r.Success? ==>
              && Decode(file).Success?
              && var c := Decode(file).value;
                 && prims.decodePoint(c.ephPub).Some?
                 && var key := DeriveFileKey(prims, prims.exchange(recipient, prims.decodePoint(c.ephPub).value));
                    prims.open(key, c.nonce, c.ciphertext) == Some(r.value)
    ensures Decode(file).Success? && prims.decodePoint(Decode(file).value.ephPub).Some? ==>
              var c := Decode(file).value;
              var key := DeriveFileKey(prims, prims.exchange(recipient, prims.decodePoint(c.ephPub).value));
              r == match prims.open(key, c.nonce, c.ciphertext)
                   case None => Failure(InvalidTag)
                   case Some(plaintext) => Success(plaintext)
  {
    var c :- Decode(file);
    match prims.decodePoint(c.ephPub)
    case None => Failure(InvalidPoint)
    case Some(ephemeral) =>
      var key := DeriveFileKey(prims, prims.exchange(recipient, ephemeral));
      match prims.open(key, c.nonce, c.ciphertext)
      case None => Failure(InvalidTag)
      case Some(plaintext) => Success(plaintext)
  }

  /** Every encrypted file is the header, the plaintext and the tag. */
  lemma EncryptLength(prims: Primitives, recipient: PublicKey, plaintext: Bytes, ephemeral: PrivateKey, nonce: Bytes)
    requires Sound(prims)
    requires |nonce| == NonceLength
    ensures |Encrypt(prims, recipient, plaintext, ephemeral, nonce)| == HeaderLength + |plaintext| + TagLength
  {
    var key := DeriveFileKey(prims, prims.exchange(ephemeral, recipient));
    assert |key| == KeyLength;
    var c := Container(EncodePoint(prims.publicOf(ephemeral)), nonce, prims.seal(key, nonce, plaintext));
    assert Encrypt(prims, recipient, plaintext, ephemeral, nonce) == Encode(c);
  }

  /** A well-formed container whose ciphertext is shorter than the tag fails authentication:
      the tool has no format check for it, so the failure comes from the AEAD. */
  lemma {:induction false} ShortCiphertextFailsAuthentication(prims: Primitives, c: Container, recipient: PrivateKey)
    requires Sound(prims)
    requires |c.ephPub| < 0x1_0000_0000 && |c.nonce| == NonceLength
    requires |c.ciphertext| < TagLength
    requires prims.decodePoint(c.ephPub).Some?
    ensures Decrypt(prims, Encode(c), recipient) == Failure(InvalidTag)
  {
    DecodeEncode(c);
  }

  /** A file that does not start with the magic header is refused before any cryptography,
      whatever the primitives and the key. */
  lemma ForeignFileRejected(prims: Primitives, file: Bytes, recipient: PrivateKey)
    requires |file| < MagicLength || file[..MagicLength] != MagicHeader
    ensures Decrypt(prims, file, recipient) == Failure(NotEncryptedFile)
  {
  }

  /** The end-to-end round trip: decrypting, with the recipient's private key, a file encrypted
      to the recipient's public key gives back the plaintext, for every plaintext (the empty one
      included). It rests on ECDH agreement, on both sides deriving the key with the same HKDF
      parameters, on point encoding being undone by point decoding, and on AEAD correctness. */
  lemma {:induction false} EncryptDecryptRoundTrip(prims: Primitives, recipient: PrivateKey, plaintext: Bytes, ephemeral: PrivateKey, nonce: Bytes)
    requires Sound(prims)
    requires ValidScalar(recipient) && ValidScalar(ephemeral)
    requires |nonce| == NonceLength
    ensures Decrypt(prims, Encrypt(prims, prims.publicOf(recipient), plaintext, ephemeral, nonce), recipient) == Success(plaintext)
  {
    var recipientPub := prims.publicOf(recipient);
    var ephemeralPub := prims.publicOf(ephemeral);
    var key := DeriveFileKey(prims, prims.exchange(ephemeral, recipientPub));
    assert |key| == KeyLength;
    var c := Container(EncodePoint(ephemeralPub), nonce, prims.seal(key, nonce, plaintext));
    DecodeEncode(c);
    assert Encrypt(prims, recipientPub, plaintext, ephemeral, nonce) == Encode(c);
    assert prims.decodePoint(c.ephPub) == Some(ephemeralPub);
    assert prims.exchange(recipient, ephemeralPub) == prims.exchange(ephemeral, recipientPub);
  }
}

=== FILE: errors.dfy ===
/** The failures the file tool reports. In the tool every one of them is a Python exception. */
module Errors {

  /** A container field that the input ended before. */
  datatype Field = LengthField | EphemeralKey | Nonce

  datatype Error =
    /** "does not contain a valid PEM key": the key file parsed as neither key type, or
        (through the quirk of the nested handlers) it held only a public key where a private one was needed. */
    | InvalidPemKey
    /** "does not contain a private key": raised inside the public-key fallback, never surfaced. */
    | NoPrivateKey
    /** The ValueError of a failed `load_pem_public_key`: caught inside the key loader's fallback,
        surfaced only if the embedded default key failed to parse. */
    | PemParseFailed
    /** "Private key file required for decryption": a container was given but no key file. */
    | PrivateKeyRequired
    /** "Not a valid encrypted file": the first eight bytes are not the magic header. */
    | NotEncryptedFile
    /** The input ends before the named container field is complete. */
    | Truncated(field: Field)
    /** The ephemeral public key bytes are not an encoded point of the curve. */
    | InvalidPoint
    /** The AEAD tag did not verify: tampering, corruption or the wrong private key. */
    | InvalidTag
}

=== FILE: key_loader.dfy ===
/** `load_key_with_type`: read a PEM key file and hand back the key the caller needs. */
module KeyLoader {
  import opened Octets
  import opened Wrappers
  import opened Errors
  import opened Curve
  import opened Crypto

  /** The inner `try` around `load_pem_public_key`: the public-key parse, and the `raise` of
      "does not contain a private key" when a private key was needed. */
  function PublicFallback(parsed: PemKey, needPrivate: bool): (r: Result<PemKey, Error>)
    requires !parsed.Private?
    ensures r.Success? <==> parsed.Public? && !needPrivate
    ensures r.Success? ==> r.value == parsed
    ensures parsed.Public? && needPrivate ==> r == Failure(NoPrivateKey)
  {
    match parsed
    case Public(_) => if !needPrivate then Success(parsed) else Failure(NoPrivateKey)
    case Unrecognized => Failure(PemParseFailed)
  }

  /** The `except ValueError` around `load_pem_public_key`: every failure of the fallback,
      its own "does not contain a private key" included, becomes "does not contain a valid PEM key". */
  function CatchAsInvalidPem(r: Result<PemKey, Error>): (s: Result<PemKey, Error>)
    ensures r.Success? ==> s == r
    ensures r.Failure? ==> s == Failure(InvalidPemKey)
  {
    if r.Failure? then Failure(InvalidPemKey) else r
  }

  /** `load_key_with_type(filename, need_private)` on the file's contents `pem`. With `needPrivate`
      it returns the private key; otherwise it returns a public key, the derived one when the file
      holds a private key. Every failure surfaces as InvalidPemKey, including a public-only file
      when a private key is needed: the error raised for that case is caught by the very next
      handler. */
  function LoadKey(prims: Primitives, pem: Bytes, needPrivate: bool): (r: Result<PemKey, Error>)
    ensures var parsed := prims.parsePem(pem);
      && (r.Success? <==> parsed.Private? || (parsed.Public? && !needPrivate))
      && (r.Failure? ==> r.error == InvalidPemKey)
      && (needPrivate && r.Success? ==> r.value.Private? && r.value.priv == parsed.priv)
      && (!needPrivate && parsed.Private? ==> r == Success(Public(prims.publicOf(parsed.priv))))
      && (!needPrivate && parsed.Public? ==> r == Success(parsed))
  {
    var parsed := prims.parsePem(pem);
    if parsed.Private? then
      if needPrivate then Success(parsed) else Success(Public(prims.publicOf(parsed.priv)))
    else
      CatchAsInvalidPem(PublicFallback(parsed, needPrivate))
  }

  /** The message "does not contain a private key" never reaches the caller: a public-only key
      file asked for as a private key fails as an invalid PEM key, like a file that is no key at all. */
  lemma PublicKeyNeverPassesAsPrivate(prims: Primitives, pem: Bytes)
    requires prims.parsePem(pem).Public?
    ensures PublicFallback(prims.parsePem(pem), true) == Failure(NoPrivateKey)
    ensures LoadKey(prims, pem, true) == Failure(InvalidPemKey)
  {
  }

  /** With sound primitives every key the loader returns is usable: a valid scalar, or a curve point. */
  lemma LoadedKeysAreValid(prims: Primitives, pem: Bytes, needPrivate: bool)
    requires Sound(prims)
    requires LoadKey(prims, pem, needPrivate).Success?
    ensures var k := LoadKey(prims, pem, needPrivate).value;
      && (needPrivate ==> k.Private? && ValidScalar(k.priv))
      && (!needPrivate ==> k.Public? && prims.onCurve(k.pub))
  {
  }
}

=== FILE: mode_selector.dfy ===
/** `auto_process`: choose between encryption and decryption by the first eight bytes of the
    input, and find the key for the chosen direction. */
module ModeSelector {
  import opened Octets
  import opened Wrappers
  import opened Errors
  import opened Curve
  import opened Crypto
  import opened Codec
  import opened KeyLoader
  import opened Ecies

  /** `PUBKEY`, the key files are encrypted to when no key file is given. */
  const DefaultPublicKeyPem: Bytes := Ascii(
    "-----BEGIN PUBLIC KEY-----\n"
    + "MFkwEwYHKoZIzj0CAQYIKoZIzj0DAQcDQgAE9cGzSB4vdeG1GjdH4Ej7hikkfjNp\n"
    + "3lhpqsUQ89d6hSkIiFn+VxTh2LcvsTlzpFMrItcOj2boGwEWmisO8Tv4+A==\n"
    + "-----END PUBLIC KEY-----\n")

  datatype Mode = Encrypting | Decrypting

  /** The `magic == MAGIC_HEADER` test of `auto_process`: a container is recognised by its magic
      header alone. */
  function SelectMode(input: Bytes): (m: Mode)
    ensures m == Decrypting <==> |input| >= MagicLength && input[..MagicLength] == MagicHeader
  {
    if HasMagic(input) then Decrypting else Encrypting
  }

  /** The key the `else` branch of `auto_process` encrypts to. A key file may hold either key
      type; without one, `PUBKEY` is parsed directly as a public key. */
  function RecipientKey(prims: Primitives, keyFile: Option<Bytes>): (r: Result<PublicKey, Error>)
    ensures keyFile.Some? ==> r == match prims.parsePem(keyFile.value)
      case Private(k) => Success(prims.publicOf(k))
      case Public(q) => Success(q)
      case Unrecognized => Failure(InvalidPemKey)
    ensures keyFile.None? ==> r == match prims.parsePem(DefaultPublicKeyPem)
      case Public(q) => Success(q)
      case _ => Failure(PemParseFailed)
  {
    match keyFile
    case Some(pem) =>
      var loaded :- LoadKey(prims, pem, false);
      Success(loaded.pub)
    case None =>
      match prims.parsePem(DefaultPublicKeyPem)
      case Public(q) => Success(q)
      case _ => Failure(PemParseFailed)
  }

  /** `auto_process(input, output, key_file)` on the input's contents and the key file's contents;
      the ephemeral key and nonce are what an encryption would draw. */
  function AutoProcess(prims: Primitives, input: Bytes, keyFile: Option<Bytes>, ephemeral: PrivateKey, nonce: Bytes): (r: Result<Bytes, Error>)
    requires |nonce| == NonceLength
    ensures SelectMode(input) == Decrypting && keyFile.None? ==> r == Failure(PrivateKeyRequired)
    ensures SelectMode(input) == Decrypting && keyFile.Some? && !prims.parsePem(keyFile.value).Private? ==>
              r == Failure(InvalidPemKey)
    ensures SelectMode(input) == Decrypting && r.Success? ==> Decode(input).Success?
    ensures SelectMode(input) == Encrypting ==> (r.Success? <==> RecipientKey(prims, keyFile).Success?)
    ensures SelectMode(input) == Encrypting && r.Failure? ==> r == Failure(RecipientKey(prims, keyFile).error)
    ensures SelectMode(input) == Encrypting && r.Success? ==> SelectMode(r.value) == Decrypting
    ensures SelectMode(input) == Decrypting && keyFile.Some? && prims.parsePem(keyFile.value).Private? ==>
              r == Decrypt(prims, input, prims.parsePem(keyFile.value).priv)
    ensures SelectMode(input) == Encrypting && r.Success? ==>
              r.value == Encrypt(prims, RecipientKey(prims, keyFile).value, input, ephemeral, nonce)
  {
    if SelectMode(input) == Decrypting then
      match keyFile
      case None => Failure(PrivateKeyRequired)
      case Some(pem) =>
        var loaded :- LoadKey(prims, pem, true);
        Decrypt(prims, input, loaded.priv)
    else
      var recipient :- RecipientKey(prims, keyFile);
      Success(Encrypt(prims, recipient, input, ephemeral, nonce))
  }

  /** The key file chosen for encryption holds `recipient` or its public half; without one,
      `PUBKEY` parses to that public half. */
  ghost predicate EncryptsTo(prims: Primitives, keyFile: Option<Bytes>, recipient: PrivateKey) {
    match keyFile
    case Some(pem) => prims.parsePem(pem) == Private(recipient) || prims.parsePem(pem) == Public(prims.publicOf(recipient))
    case None => prims.parsePem(DefaultPublicKeyPem) == Public(prims.publicOf(recipient))
  }

  /** Any file that is not a container, encrypted to a recipient, comes back unchanged when the
      result is processed with the recipient's private key file. */
  lemma {:induction false} AutoProcessRoundTrip(
    prims: Primitives, plaintext: Bytes, encryptionKeyFile: Option<Bytes>, privateKeyFile: Bytes, recipient: PrivateKey,
    ephemeral: PrivateKey, nonce: Bytes, unusedEphemeral: PrivateKey, unusedNonce: Bytes)
    requires Sound(prims)
    requires SelectMode(plaintext) == Encrypting
    requires prims.parsePem(privateKeyFile) == Private(recipient)
    requires EncryptsTo(prims, encryptionKeyFile, recipient)
    requires ValidScalar(ephemeral)
    requires |nonce| == NonceLength && |unusedNonce| == NonceLength
    ensures AutoProcess(prims, plaintext, encryptionKeyFile, ephemeral, nonce).Success?
    ensures var file := AutoProcess(prims, plaintext, encryptionKeyFile, ephemeral, nonce).value;
      AutoProcess(prims, file, Some(privateKeyFile), unusedEphemeral, unusedNonce) == Success(plaintext)
  {
    assert RecipientKey(prims, encryptionKeyFile) == Success(prims.publicOf(recipient));
    var file := Encrypt(prims, prims.publicOf(recipient), plaintext, ephemeral, nonce);
    assert AutoProcess(prims, plaintext, encryptionKeyFile, ephemeral, nonce) == Success(file);
    assert LoadKey(prims, privateKeyFile, true) == Success(Private(recipient));
    EncryptDecryptRoundTrip(prims, recipient, plaintext, ephemeral, nonce);
  }

  /** Without a key file the input is encrypted to `PUBKEY`, and the holder of the private key
      whose public half `PUBKEY` is can decrypt the result. */
  lemma DefaultKeyRoundTrip(
    prims: Primitives, plaintext: Bytes, privateKeyFile: Bytes, recipient: PrivateKey,
    ephemeral: PrivateKey, nonce: Bytes, unusedEphemeral: PrivateKey, unusedNonce: Bytes)
    requires Sound(prims)
    requires prims.parsePem(DefaultPublicKeyPem) == Public(prims.publicOf(recipient))
    requires SelectMode(plaintext) == Encrypting
    requires prims.parsePem(privateKeyFile) == Private(recipient)
    requires ValidScalar(ephemeral)
    requires |nonce| == NonceLength && |unusedNonce| == NonceLength
    ensures AutoProcess(prims, plaintext, None, ephemeral, nonce).Success?
    ensures var file := AutoProcess(prims, plaintext, None, ephemeral, nonce).value;
      AutoProcess(prims, file, Some(privateKeyFile), unusedEphemeral, unusedNonce) == Success(plaintext)
  {
    AutoProcessRoundTrip(prims, plaintext, None, privateKeyFile, recipient, ephemeral, nonce, unusedEphemeral, unusedNonce);
  }
}

=== FILE: octets.dfy ===
/** Byte strings, the currency of every operation of the file tool. */
module Octets {

  type Byte = b: int | 0 <= b < 0x100

  type Bytes = seq<Byte>

  /** The bytes of an ASCII string literal, as Python's `str.encode()` produces them. Only ASCII
      literals are ever encoded; any other character would keep just its low byte. */
  function Ascii(s: string): (b: Bytes)
    ensures |b| == |s|
    ensures forall i | 0 <= i < |s| && s[i] as int < 0x80 :: b[i] == s[i] as int
  {
    if s == [] then [] else [s[0] as int % 0x100] + Ascii(s[1..])
  }

  /** What `f.read(n)` returns: the next `n` bytes, or everything that is left when the stream
      ends first. */
  function ReadAtMost(buf: Bytes, n: nat): (r: Bytes)
    ensures |r| <= n
    ensures |r| == n <==> n <= |buf|
    ensures r <= buf
    ensures n > |buf| ==> r == buf
  {
    if n <= |buf| then buf[..n] else buf
  }

  /** The fields of a five-part concatenation are its consecutive slices. */
  lemma Slices5<T>(a: seq<T>, b: seq<T>, c: seq<T>, d: seq<T>, e: seq<T>)
    ensures var s := a + b + c + d + e;
      && |s| == |a| + |b| + |c| + |d| + |e|
      && s[..|a|] == a
      && s[|a|..|a| + |b|] == b
      && s[|a| + |b|..|a| + |b| + |c|] == c
      && s[|a| + |b| + |c|..|a| + |b| + |c| + |d|] == d
      && s[|a| + |b| + |c| + |d|..] == e
  {
  }

  /** Cutting a sequence at four points and concatenating the pieces gives it back. */
  lemma Split5<T>(s: seq<T>, i: nat, j: nat, k: nat, l: nat)
    requires i <= j <= k <= l <= |s|
    ensures s == s[..i] + s[i..j] + s[j..k] + s[k..l] + s[l..]
  {
  }
}

=== FILE: wrappers.dfy ===
/** Optional values and results: a raised exception of the file tool is a `Failure`, and `:-`
    passes it on to the caller the way an uncaught exception does. */
module Wrappers {

  /** An optional value: the `None` of a Python function that may not produce one. */
  datatype Option<+T> = None | Some(value: T)

  /** Either the value an operation returns or the error it raises. */
  datatype Result<+T, +E> = Success(value: T) | Failure(error: E) {

    predicate IsFailure() {
      Failure?
    }

    function PropagateFailure<U>(): Result<U, E>
      requires Failure?
    {
      Failure(error)
    }

    function Extract(): T
      requires Success?
    {
      value
    }
  }
}
